=== FILE: README.md ===
# Bing wallpaper cache — Dafny model

This project models the core of a small Node.js service that caches
Bing's image of the day. The service has two parts:

- `BingService` (src/services/bing.service.js) runs one refresh cycle. It
  fetches the metadata, retrying a fixed number of times. It builds the UHD
  download URL and compares the fetched `startdate` with the one stored on
  disk. When the two differ, it downloads the image and writes it, and then
  writes the metadata.
- app.js holds the `updateWallpaper` wrapper, which turns errors into log
  reports. It also holds the startup trigger and the `/images`, `/metadata`
  and `/health` handlers.

The outside world is made explicit:

- `Env` holds the reply to the i-th metadata request (`nat -> Reply`), the
  reply to the image download, and whether each of the two file writes
  succeeds.
- `Cache` holds the image file, the metadata file and the set of existing
  directories. Each file is `Missing`, `Unreadable` or `Present(content)`.
- `Codec` stands for the serialiser `JSON.stringify(_, null, 2)` and the
  parser `JSON.parse`.

Every operation returns the trace of actions it performed: requests,
retry delays, directory creations, the download and the two writes. The
cache it returns is proved equal to replaying that trace (`CycleReplays`).
Metadata retrieval has two definitions: a declarative reference `Fetch`
(the first acceptable reply among `maxAttempts`) and the retry loop
`GetMetadata`, which is proved to compute the same result and trace.

Modules: `Wrappers` (Option/Result), `BingData` (remote documents and
replies), `CacheState` (files, events, replay, counting), `BingService`
(the operations), `UpdateProperties` (lemmas about the cycle) and `App`.

Some edge cases of the code, modelled as written:

- `getMetadata` accepts a 200 response whose `images` is an empty array
  (src/services/bing.service.js:29). The cycle then fails in URL generation
  (`EmptyImageListAcceptedThenRejected`).
- `generateWallpaperUrl` checks only `metadata`, `metadata.images` and
  `images[0]`. It does not check `urlbase` or `startdate`. A missing
  `urlbase` renders as `undefined` in the URL and a `null` one as `null`
  (`Render`).
- Descriptor fields are `Field = Absent | Null | Str(text)`, so the
  start-date comparison is JavaScript's `===`: a stored `null` start date
  does not match a fetched descriptor without one, and forces an update.
- With `maxAttempts <= 0`, `getMetadata` returns `undefined` without an
  error. The cycle then fails with the invalid-metadata error and makes no
  request (`CycleWithoutAttempts`).
- A failed download still leaves the image directory created, because the
  directory is made before the request is sent.

## Model

| member | source | states |
|---|---|---|
| BingService.AttemptTrace | src/services/bing.service.js:36-44 | n attempts give 2n−1 actions that start and end with a request, and requests and retry delays alternate, so every request except the last is followed by a delay |
| BingService.Fetch | src/services/bing.service.js:21-47 | `undefined` exactly when maxAttempts ≤ 0; accepted data always has `images`; a failure is always the exhausted-retries error; the trace holds only requests and delays |
| BingService.GetMetadata | src/services/bing.service.js:21-47 | the retry loop returns the same result and the same trace as the reference `Fetch` |
| UpdateProperties.AttemptTraceCounts | src/services/bing.service.js:36-41 | n attempts make exactly n requests and n−1 delays |
| UpdateProperties.FetchSucceedsAt | src/services/bing.service.js:24-41 | if attempt k is the first acceptable one, its data is returned after exactly k requests and k−1 delays |
| UpdateProperties.FetchExhausts | src/services/bing.service.js:36-44 | if all attempts fail, exactly maxAttempts requests are made, no delay follows the last, and the error carries the last attempt's message |
| UpdateProperties.FetchWithoutAttempts | src/services/bing.service.js:21-47 | with maxAttempts ≤ 0 nothing is requested and the result is `undefined`, not an error |
| UpdateProperties.EmptyImageListAcceptedThenRejected | src/services/bing.service.js:29-31 | a 200 answer with an empty `images` array is accepted, then the cycle fails with invalid metadata after one request and with the cache untouched |
| BingService.GenerateWallpaperUrl | src/services/bing.service.js:49-73 | fails exactly when the metadata, `images` or `images[0]` is missing; otherwise the URL is base ++ urlbase ++ `_UHD.jpg`, and startdate, title and copyright are copied unchanged |
| UpdateProperties.UrlDecomposes | src/services/bing.service.js:55-59 | the URL splits back into the base, the descriptor's `urlbase` and the `_UHD.jpg` suffix |
| BingData.Acceptable | src/services/bing.service.js:29-31 | an attempt is accepted exactly on status 200 with a truthy body whose `images` is truthy; an empty `images` array passes |
| BingService.Render | src/services/bing.service.js:55-59 | the template literal renders a string as itself, a missing `urlbase` as `undefined` and a `null` one as `null` |
| UpdateProperties.DistinctUrlbasesDistinctUrls | src/services/bing.service.js:55-59 | different string `urlbase` values give different download URLs (a `null` or missing one can collide with the strings `"null"` and `"undefined"`) |
| BingService.DownloadWallpaper | src/services/bing.service.js:75-102 | succeeds exactly on a 200 reply with a successful write, and then the image file holds the body; otherwise the image file is unchanged; the metadata file is never touched; the image directory exists afterwards |
| BingService.EnsureDir | src/services/bing.service.js:79-82 | creates the directory only when it does not exist (the same guard is at src/services/bing.service.js:106-109 and app.js:20-24); the directory then exists, the two files are unchanged, and the cache is the replay of the returned trace, which holds only directory creations |
| BingService.DownloadError | src/services/bing.service.js:84-94 | which error a failed download raises: a refused request with its message first, then a non-200 status with that status, then the failed write with its message |
| BingService.DownloadTrace | src/services/bing.service.js:79-94 | the download request precedes the image write; the write happens only on success and is the last action; the metadata file is never written |
| BingService.DownloadCounts | src/services/bing.service.js:84-88 | a download makes exactly one download request and no metadata request |
| BingService.SaveMetadata | src/services/bing.service.js:104-119 | succeeds exactly when the write does; the metadata file then holds the serialised document, which parses back to it; on failure the file is unchanged; the image file is never touched |
| BingService.NeedsUpdate | src/services/bing.service.js:126-140 | no update exactly when the stored file is readable, parses, has a first image, and that image's startdate equals the fetched one; a missing, unreadable or unparsable file forces an update |
| BingService.Persist | src/services/bing.service.js:142-148 | succeeds exactly when the download answers 200 and both writes succeed, leaving the downloaded bytes and the serialised metadata in the cache; a failure leaves the metadata file unchanged; the image changes only to 200-download bytes, and on failure only when the metadata write failed |
| BingService.PersistOrder | src/services/bing.service.js:142-144 | in the update branch, every image write comes after every download request, and every metadata write comes after every image write and is preceded by one, so the metadata is written last |
| BingService.CheckAndUpdate | src/services/bing.service.js:121-155 | `false` leaves the cache unchanged and performs only the metadata requests; `true` means a 200 download whose bytes are now in the image file and the serialised fetched metadata in the metadata file; the image changes only to 200-download bytes; a failure never changes the metadata file, and changes the image only when the metadata write failed |
| UpdateProperties.CycleCounts | src/services/bing.service.js:121-155 | a cycle makes exactly the metadata requests of retrieval and at most one download; it downloads exactly when it got past change detection |
| UpdateProperties.CycleWithoutAttempts | src/services/bing.service.js:121-124 | with maxAttempts ≤ 0 the cycle fails with invalid metadata, makes no request and leaves the cache alone |
| UpdateProperties.CycleFetchFailure | src/services/bing.service.js:121-124 | when every attempt fails, the cycle reports the last failure after exactly maxAttempts requests, downloads nothing and leaves the cache unchanged |
| UpdateProperties.CycleReplays | src/services/bing.service.js:121-155 | the cache a cycle returns equals the result of replaying its trace on the starting cache |
| UpdateProperties.CycleWriteOrder | src/services/bing.service.js:142-144 | in every cycle trace, every image write comes after every download request, and every metadata write comes after every image write and is preceded by one: the metadata is written last |
| UpdateProperties.SameStartDateIsUpToDate | src/services/bing.service.js:128-136 | any stored file text that parses to a document whose first startdate equals the fetched one makes the cycle return `false`, with the cache unchanged and only the retrieval actions performed |
| UpdateProperties.UpToDateExactly | src/services/bing.service.js:121-140 | the cycle returns `false` exactly when retrieval yields a document with a first image and change detection finds its startdate already stored |
| UpdateProperties.NewStartDateUpdates | src/services/bing.service.js:142-148 | when an update is needed, a 200 download and two successful writes make the cycle return `true`; the image file then holds the bytes, and the stored metadata reads back with the fetched startdate |
| UpdateProperties.Idempotent | src/services/bing.service.js:126-150 | after a successful update, any second run whose retrieval yields the same metadata, whatever attempts failed on the way, returns `false`, downloads nothing and leaves the cache unchanged, whatever the download would answer |
| UpdateProperties.ExampleFirstAndSecondRun | src/services/bing.service.js:121-155 | for urlbase `/th?id=OHR.Test1` and no prior cache: the request goes to base ++ `/th?id=OHR.Test1_UHD.jpg`, both files are written and the result is `true`; a second run returns `false` without downloading |
| App.UpdateWallpaper | app.js:26-39 | always completes: a failed cycle becomes an `UpdateFailed` report carrying its error, and the cycle's effects on the cache stand |
| App.Startup | app.js:20-48 | a cycle runs exactly when the image file does not exist, whatever the metadata file holds: then the report and the cache are those of `updateWallpaper` run on the cache with the image directory made, and the trace ends with the cycle's; otherwise only the image directory is created and no request is made |
| App.StartupRunsCycle | app.js:41-48 | starting without an image makes exactly the metadata requests of one retrieval and at most one download |
| App.StartupReplays | app.js:20-48 | the cache left by startup equals the replay of its trace: the directory creation, then the cycle's actions if one ran |
| App.ServeImage | app.js:59-74 | 200 with the file's bytes, `image/jpeg` and `public, max-age=3600` exactly when the image is present; 404 when it is missing; 500 when it cannot be read |
| App.ServeMetadata | app.js:80-96 | 200 with the raw file text, `application/json` and the same Cache-Control exactly when the file is present; 404 when it is missing; 500 when reading throws |
| App.Handle | app.js:59-96 | the routing: `/images` and `/metadata` answer from their cache file, `/health` with the fixed JSON payload; a route answers 200 exactly when it is `/health` or its file is present |
| App.HealthIgnoresCache | app.js:76-78 | `/health` answers 200 with `{status: "OK", version: "1.0.0"}` whatever the cache holds |
| App.ServedAfterUpdate | app.js:59-96 | after a successful update, `/images` serves the downloaded bytes and `/metadata` serves text that parses back to the fetched metadata |
| App.ResponsesStableWithoutUpdate | app.js:59-96 | after an up-to-date or failed cycle every endpoint answers as before; the one exception is `/images` after a failed metadata write |
| App.StartupFillsEmptyCache | app.js:41-52 | starting without an image, a successful update leaves `/images` serving the downloaded bytes |

## Left out

- Logging (src/utils/logger.js and every `logger` call) is a sink with no behaviour. The wrapper's log outcome is kept as a `Report`.
- node-cron scheduling (app.js:54-57), `express.static`, `app.listen` and the process signal handlers (app.js:98-114) are runtime plumbing.
- The startup task's `catch` (app.js:49-51) cannot be reached, because `updateWallpaper` never throws and `existsSync` does not throw.
- HTTP client internals: a reply the client rejects (a transport error, or a status outside 2xx under the default status validation) is `Rejected(message)`. Request timeouts are not modelled.
- JSON parsing and serialisation are the `Codec` parameter. The idempotence lemmas assume that parsing a serialised document gives it back (`RoundTrips`).
- Metadata fields other than `images[i].urlbase/startdate/title/copyright` are not modelled. A `null` array entry and a missing one are both `None`, as both are falsy for `images[0]`. Non-array `images` and non-string field values are not modelled.
- Error messages are constructors of `Error`. The retries-exhausted error carries the last attempt's message, not the full wrapped text.
- `path.dirname` and `path.resolve` are not modelled. The configuration gives each cache file's directory, and the two cache file paths are assumed distinct.
- `mkdirSync` is assumed to succeed. A failed `writeFile` is assumed to leave its target file as it was; partial writes are not modelled.
- The retry delay is recorded as a `RetryDelay(ms)` event; its duration is not modelled.
- Concurrency between a running cycle and HTTP reads, and overlapping cycles, are not modelled.
- App.ServeImage: a file that exists but cannot be streamed gives 500. In the running server that error comes from Express's own error handling of `sendFile`, not from the handler's `catch`.
- App.ServeMetadata: Express adds `; charset=utf-8` to the Content-Type, and 404/500 bodies carry Express's default type. Only the headers the handlers set are modelled.
- App.Handle: the handlers are modelled for a plain GET without conditional (`If-None-Match`, `If-Modified-Since`) or `Range` headers. Express's 304 answers to a matching validator from `res.send`, `res.json` and `res.sendFile`, and `sendFile`'s 206/416 range answers, are not modelled. Neither are the headers Express adds (`ETag`, `Last-Modified`, `Accept-Ranges`, `Content-Length`).
- App.Handle: `/health` carries the `application/json` type `res.json` sets, without Express's `; charset=utf-8` suffix; the body is the payload object rather than its serialised text.

=== FILE: app.dfy ===
/** The HTTP application: the error-swallowing update wrapper, the startup
    trigger, and the read handlers, which decide their response from the
    state of the cache files alone. */
module App {
  import opened Wrappers
  import opened BingData
  import opened CacheState
  import opened BingService
  import UpdateProperties

  // ----- update wrapper and startup -----

  /** What the wrapper logs once a cycle is over. */
  datatype Report = Updated | UpToDate | UpdateFailed(error: Error)

  /** A finished wrapper call: it always completes, with a report. */
  datatype Completed = Completed(report: Report, trace: seq<Event>, cache: Cache)

  /** `updateWallpaper`: runs one cycle and turns its outcome, error
      included, into a log report. */
  function UpdateWallpaper(cfg: Config, codec: Codec, env: Env, c: Cache): (r: Completed)
    ensures r.report.UpdateFailed? <==> CheckAndUpdate(cfg, codec, env, c).result.Failure?
    ensures r.report.UpdateFailed? ==> r.report.error == CheckAndUpdate(cfg, codec, env, c).result.error
    ensures r.report == Updated <==> CheckAndUpdate(cfg, codec, env, c).result == Success(true)
    ensures r.report == UpToDate <==> CheckAndUpdate(cfg, codec, env, c).result == Success(false)
    // the cycle's effects stand, whether or not it failed
    ensures r.cache == CheckAndUpdate(cfg, codec, env, c).cache
    ensures r.trace == CheckAndUpdate(cfg, codec, env, c).trace
  {
    var o := CheckAndUpdate(cfg, codec, env, c);
    match o.result
    case Success(updated) => Completed(if updated then Updated else UpToDate, o.trace, o.cache)
    case Failure(e) => Completed(UpdateFailed(e), o.trace, o.cache)
  }

  /** A finished startup; `report` is `None` when no cycle ran. */
  datatype Started = Started(report: Option<Report>, trace: seq<Event>, cache: Cache)

  /** Process start: the image cache directory is created if absent; then a
      cycle runs only when no cached image file exists. */
  function Startup(cfg: Config, codec: Codec, env: Env, c: Cache): (r: Started)
    // the trigger looks at the image file only
    ensures r.report.Some? <==> !c.image.Exists()
    ensures c.image.Exists() ==>
      r.cache == c.(dirs := c.dirs + {cfg.imageDir}) && Requests(r.trace) == 0 && Downloads(r.trace) == 0
    // without an image, the wrapper runs one cycle on the cache with the directory made
    ensures !c.image.Exists() ==>
      var u := UpdateWallpaper(cfg, codec, env, c.(dirs := c.dirs + {cfg.imageDir}));
      && r.report == Some(u.report)
      && r.cache == u.cache
      && |u.trace| <= |r.trace| && r.trace[|r.trace| - |u.trace|..] == u.trace
  {
    var (ready, mkdir) := EnsureDir(c, cfg.imageDir);
    if !ready.image.Exists() then
      var u := UpdateWallpaper(cfg, codec, env, ready);
      Started(Some(u.report), mkdir + u.trace, u.cache)
    else
      Started(None, mkdir, ready)
  }

  /** Without a cached image, startup makes exactly the metadata requests of
      one retrieval, and downloads at most once. */
  lemma StartupRunsCycle(cfg: Config, codec: Codec, env: Env, c: Cache)
    requires !c.image.Exists()
    ensures Requests(Startup(cfg, codec, env, c).trace) == Requests(Fetch(cfg, env.replies).trace)
    ensures Downloads(Startup(cfg, codec, env, c).trace) <= 1
  {
    var (ready, mkdir) := EnsureDir(c, cfg.imageDir);
    NoRequests(mkdir);
    UpdateProperties.CycleCounts(cfg, codec, env, ready);
    CountsAppend(mkdir, CheckAndUpdate(cfg, codec, env, ready).trace);
  }

  /** Startup's returned cache is the replay of its trace: the directory
      creation followed by the cycle's own events, if a cycle ran. */
  lemma StartupReplays(cfg: Config, codec: Codec, env: Env, c: Cache)
    ensures Startup(cfg, codec, env, c).cache == Replay(c, Startup(cfg, codec, env, c).trace)
  {
    var (ready, mkdir) := EnsureDir(c, cfg.imageDir);
    if !ready.image.Exists() {
      UpdateProperties.CycleReplays(cfg, codec, env, ready);
      ReplayAppend(c, mkdir, CheckAndUpdate(cfg, codec, env, ready).trace);
    }
  }

  // ----- read handlers -----

  datatype Header = Header(name: string, value: string)

  datatype Body =
    | Binary(bytes: Bytes)
    | Text(text: string)
    | HealthStatus(status: string, version: string)

  datatype Response = Response(status: int, headers: seq<Header>, body: Body)

  const CacheControl := Header("Cache-Control", "public, max-age=3600")
  const InternalError := Response(500, [], Text("Internal Server Error"))

  /** `GET /images`: the cached image with JPEG type and one-hour public
      caching; 404 without a cached image; 500 when it cannot be read. */
  function ServeImage(image: File<Bytes>): (r: Response)
    ensures r.status == 200 <==> image.Present?
    ensures r.status == 404 <==> image.Missing?
    ensures r.status == 500 <==> image.Unreadable?
    ensures r.status == 200 ==>
      r.body == Binary(image.content)
      && r.headers == [Header("Content-Type", "image/jpeg"), CacheControl]
  {
    if image.Exists() then
      match image
      case Present(bytes) => Response(200, [Header("Content-Type", "image/jpeg"), CacheControl], Binary(bytes))
      case Unreadable => InternalError
    else
      Response(404, [], Text("No wallpaper found."))
  }

  /** `GET /metadata`: the raw text of the cached metadata file as JSON with
      one-hour public caching; 404 without it; 500 when reading throws. */
  function ServeMetadata(metadata: File<string>): (r: Response)
    ensures r.status == 200 <==> metadata.Present?
    ensures r.status == 404 <==> metadata.Missing?
    ensures r.status == 500 <==> metadata.Unreadable?
    ensures r.status == 200 ==>
      r.body == Text(metadata.content)
      && r.headers == [Header("Content-Type", "application/json"), CacheControl]
  {
    if metadata.Exists() then
      match metadata
      case Present(text) => Response(200, [Header("Content-Type", "application/json"), CacheControl], Text(text))
      case Unreadable => InternalError
    else
      Response(404, [], Text("No metadata found."))
  }

  datatype Route = ImagesRoute | MetadataRoute | HealthRoute

  /** `res.json` sets the JSON content type. */
  const HealthResponse := Response(200, [Header("Content-Type", "application/json")], HealthStatus("OK", "1.0.0"))

  /** The server's routing; `/health` does not consult the cache. */
  function Handle(route: Route, c: Cache): (r: Response)
    ensures route == ImagesRoute ==> r == ServeImage(c.image)
    ensures route == MetadataRoute ==> r == ServeMetadata(c.metadata)
    ensures route == HealthRoute ==> r == HealthResponse
    // only a present file is served with 200
    ensures r.status == 200 <==>
      route == HealthRoute || (route == ImagesRoute && c.image.Present?) || (route == MetadataRoute && c.metadata.Present?)
  {
    match route
    case ImagesRoute => ServeImage(c.image)
    case MetadataRoute => ServeMetadata(c.metadata)
    case HealthRoute => HealthResponse
  }

  // ----- read path against the update cycle -----

  /** `/health` answers the same fixed OK payload whatever the cache holds. */
  lemma HealthIgnoresCache(c: Cache, c': Cache)
    ensures Handle(HealthRoute, c) == Handle(HealthRoute, c')
    ensures Handle(HealthRoute, c) == Response(200, [Header("Content-Type", "application/json")], HealthStatus("OK", "1.0.0"))
  {
  }

  /** After a successful update, `/images` serves exactly the downloaded bytes
      and `/metadata` serves a document that parses back to the fetched
      metadata, so both endpoints describe the same wallpaper. */
  lemma ServedAfterUpdate(cfg: Config, codec: Codec, env: Env, c: Cache)
    requires RoundTrips(codec)
    requires CheckAndUpdate(cfg, codec, env, c).result == Success(true)
    ensures var after := CheckAndUpdate(cfg, codec, env, c).cache;
      && Handle(ImagesRoute, after) == Response(200, [Header("Content-Type", "image/jpeg"), CacheControl], Binary(env.download.body))
      && Handle(MetadataRoute, after).status == 200
      && Handle(MetadataRoute, after).body.Text?
      && codec.parse(Handle(MetadataRoute, after).body.text) == Fetch(cfg, env.replies).result.value
  {
  }

  /** A cycle that reports "up to date" or fails before writing metadata
      leaves every endpoint's answer as it was; only a failed metadata write
      can change `/images` without changing `/metadata`. */
  lemma ResponsesStableWithoutUpdate(cfg: Config, codec: Codec, env: Env, c: Cache, route: Route)
    requires CheckAndUpdate(cfg, codec, env, c).result != Success(true)
    requires var result := CheckAndUpdate(cfg, codec, env, c).result;
      route == ImagesRoute && result.Failure? ==> !result.error.MetadataWriteFailed?
    ensures Handle(route, CheckAndUpdate(cfg, codec, env, c).cache) == Handle(route, c)
  {
  }

  /** Starting without a cached image and completing an update leaves
      `/images` serving the downloaded bytes. */
  lemma StartupFillsEmptyCache(cfg: Config, codec: Codec, env: Env, c: Cache)
    requires c.image == Missing
    requires UpdateWallpaper(cfg, codec, env, EnsureDir(c, cfg.imageDir).0).report == Updated
    ensures Startup(cfg, codec, env, c).report == Some(Updated)
    ensures Handle(ImagesRoute, Startup(cfg, codec, env, c).cache).status == 200
    ensures Handle(ImagesRoute, Startup(cfg, codec, env, c).cache).body == Binary(env.download.body)
  {
  }
}

=== FILE: bing_data.dfy ===
/** What the remote image-of-the-day API sends back, and the local JSON codec.

    A metadata document is `{ images: [ { urlbase, startdate, title,
    copyright, ... }, ... ] }`. A descriptor field is a `Field`, which keeps
    an absent property (`undefined`) apart from `null`; an array entry that
    is falsy (`null`) is `None`. Fields the service never reads are not
    modelled. */
module BingData {
  import opened Wrappers

  newtype byte = x: int | 0 <= x < 256
  type Bytes = seq<byte>

  /** A string-valued JSON property as JavaScript sees it: missing from the
      object (`undefined`), `null`, or a string. Two fields are equal exactly
      when JavaScript's `===` holds between the two values. */
  datatype Field = Absent | Null | Str(text: string)

  /** One image descriptor of the `images` array. */
  datatype Image = Image(
    urlbase: Field,
    startdate: Field,
    title: Field,
    copyright: Field)

  /** A metadata document; `images` is `None` when the property is missing. */
  datatype Payload = Payload(images: Option<seq<Option<Image>>>)

  /** `doc.images && doc.images[0]`: the first descriptor when both are truthy.
      An empty array is truthy but has no first entry. */
  function FirstImage(doc: Payload): (first: Option<Image>)
    ensures first.Some? <==> doc.images.Some? && |doc.images.value| > 0 && doc.images.value[0].Some?
    ensures first.Some? ==> first == doc.images.value[0]
  {
    match doc.images
    case None => None
    case Some(list) => if |list| == 0 then None else list[0]
  }

  /** Start date of the first descriptor, the key used for change detection. */
  function StartDate(doc: Payload): Field
    requires FirstImage(doc).Some?
  {
    FirstImage(doc).value.startdate
  }

  /** Outcome of one metadata request. `Rejected` is a request the HTTP client
      rejects: a transport error, or a status outside 2xx (rejected by the
      client's default status validation). `Answered` is a response the client
      resolves with; `data` is `None` when the body is falsy. */
  datatype Reply =
    | Rejected(message: string)
    | Answered(status: int, data: Option<Payload>)

  /** The acceptance test of one attempt: status 200, truthy body, truthy
      `images` (an empty array passes). */
  predicate Acceptable(reply: Reply) {
    reply.Answered? && reply.status == 200 && reply.data.Some? && reply.data.value.images.Some?
  }

  const InvalidResponseMessage := "Invalid response from Bing API"

  /** Message of the error raised by a failed attempt. */
  function AttemptError(reply: Reply): string {
    if reply.Rejected? then reply.message else InvalidResponseMessage
  }

  /** Outcome of the single image download request. */
  datatype DownloadReply =
    | Refused(message: string)
    | Delivered(status: int, body: Bytes)

  /** Outcome of one file write on the local disk. */
  datatype WriteOutcome = Written | WriteError(message: string)

  /** The JSON serialiser and parser (`JSON.stringify(_, null, 2)` and
      `JSON.parse`); `parse` is `None` when parsing throws or yields a value
      whose `images` lookup throws (`null`). */
  datatype Codec = Codec(stringify: Payload -> string, parse: string -> Option<Payload>)

  /** Parsing what was serialised gives the document back, as JSON does for
      plain data. */
  ghost predicate RoundTrips(codec: Codec) {
    forall doc :: codec.parse(codec.stringify(doc)) == Some(doc)
  }
}

=== FILE: bing_service.dfy ===
/** The wallpaper service: metadata retrieval with retries, URL generation,
    image download, metadata persistence, and the update cycle that ties
    them together. The network and the disk are inputs (`Env`) and state
    (`Cache`); every operation returns the trace of what it did. */
module BingService {
  import opened Wrappers
  import opened BingData
  import opened CacheState

  /** Service configuration, fixed at construction. `imageDir` and
      `metadataDir` are the directories holding the two cache files. */
  datatype Config = Config(
    apiUrl: string,
    baseUrl: string,
    imageDir: Path,
    metadataDir: Path,
    maxAttempts: int,
    delayMs: int)

  /** What the outside world answers during one cycle: the reply to the i-th
      metadata request, the reply to the image download, and whether each of
      the two cache file writes succeeds. */
  datatype Env = Env(
    replies: nat -> Reply,
    download: DownloadReply,
    imageWrite: WriteOutcome,
    metadataWrite: WriteOutcome)

  datatype Error =
    | FetchExhausted(lastMessage: string)
    | InvalidMetadata
    | DownloadFailed(message: string)
    | DownloadStatus(status: int)
    | ImageWriteFailed(message: string)
    | MetadataWriteFailed(message: string)

  /** Result of metadata retrieval: `Success(None)` is the `undefined` returned
      when no attempt is made at all. */
  datatype Fetched = Fetched(result: Result<Option<Payload>, Error>, trace: seq<Event>)

  /** Result of an operation that may touch the cache. */
  datatype Run = Run(result: Result<bool, Error>, trace: seq<Event>, cache: Cache)

  // ----- metadata retrieval -----

  /** Index of the first acceptable reply among the first `n`, if any. */
  function FirstAcceptable(replies: nat -> Reply, n: nat): (k: Option<nat>)
    ensures k.Some? ==> k.value < n && Acceptable(replies(k.value))
    ensures k.Some? ==> forall i :: 0 <= i < k.value ==> !Acceptable(replies(i))
    ensures k.None? ==> forall i :: 0 <= i < n ==> !Acceptable(replies(i))
  {
    if n == 0 then None
    else
      match FirstAcceptable(replies, n - 1)
      case Some(k) => Some(k)
      case None => if Acceptable(replies(n - 1)) then Some(n - 1) else None
  }

  /** The trace of `n` attempts: one request each, a delay between two
      consecutive attempts, none after the last. */
  function AttemptTrace(cfg: Config, n: nat): (t: seq<Event>)
    requires n >= 1
    ensures |t| == 2 * n - 1
    ensures t[0] == MetadataRequest(cfg.apiUrl)
    ensures t[|t| - 1] == MetadataRequest(cfg.apiUrl)
    ensures forall i :: 0 <= i < |t| ==> t[i] == MetadataRequest(cfg.apiUrl) || t[i] == RetryDelay(cfg.delayMs)
    // requests and delays alternate
    ensures forall i :: 0 <= i < |t| - 1 ==> (t[i].MetadataRequest? <==> t[i + 1].RetryDelay?)
  {
    if n == 1 then [MetadataRequest(cfg.apiUrl)]
    else AttemptTrace(cfg, n - 1) + [RetryDelay(cfg.delayMs), MetadataRequest(cfg.apiUrl)]
  }

  /** Reference definition of metadata retrieval: the first acceptable reply
      within `maxAttempts` wins; otherwise the error of the last attempt is
      reported; with no attempts allowed nothing is requested. */
  function Fetch(cfg: Config, replies: nat -> Reply): (f: Fetched)
    ensures f.result == Success(None) <==> cfg.maxAttempts <= 0
    ensures f.result.Success? && f.result.value.Some? ==> f.result.value.value.images.Some?
    ensures f.result.Failure? ==> f.result.error.FetchExhausted?
    ensures forall i :: 0 <= i < |f.trace| ==> f.trace[i].MetadataRequest? || f.trace[i].RetryDelay?
  {
    if cfg.maxAttempts <= 0 then Fetched(Success(None), [])
    else
      match FirstAcceptable(replies, cfg.maxAttempts as nat)
      case Some(k) => Fetched(Success(Some(replies(k).data.value)), AttemptTrace(cfg, k + 1))
      case None =>
        Fetched(Failure(FetchExhausted(AttemptError(replies(cfg.maxAttempts - 1)))),
                AttemptTrace(cfg, cfg.maxAttempts as nat))
  }

  /** The retry loop as the service runs it. */
  method GetMetadata(cfg: Config, replies: nat -> Reply)
    returns (result: Result<Option<Payload>, Error>, trace: seq<Event>)
    ensures Fetched(result, trace) == Fetch(cfg, replies)
  {
    var retryCount: nat := 0;
    trace := [];
    while retryCount < cfg.maxAttempts
      invariant retryCount == 0 || retryCount < cfg.maxAttempts
      invariant forall j :: 0 <= j < retryCount ==> !Acceptable(replies(j))
      invariant trace == AttemptsSoFar(cfg, retryCount)
    {
      var reply := replies(retryCount);
      trace := trace + [MetadataRequest(cfg.apiUrl)];
      assert trace == AttemptTrace(cfg, retryCount + 1);
      if Acceptable(reply) {
        FirstAcceptableIs(replies, cfg.maxAttempts as nat, retryCount);
        result := Success(Some(reply.data.value));
        return;
      }
      retryCount := retryCount + 1;
      if retryCount < cfg.maxAttempts {
        trace := trace + [RetryDelay(cfg.delayMs)];
      } else {
        FirstAcceptableNone(replies, cfg.maxAttempts as nat);
        result := Failure(FetchExhausted(AttemptError(reply)));
        return;
      }
    }
    result := Success(None);
  }

  /** The loop's trace after `count` failed attempts: their requests, each
      followed by the delay before the next. */
  function AttemptsSoFar(cfg: Config, count: nat): seq<Event> {
    if count == 0 then [] else AttemptTrace(cfg, count) + [RetryDelay(cfg.delayMs)]
  }

  lemma FirstAcceptableNone(replies: nat -> Reply, n: nat)
    requires forall j :: 0 <= j < n ==> !Acceptable(replies(j))
    ensures FirstAcceptable(replies, n) == None
  {
  }

  /** The first acceptable reply is the acceptable one all of whose
      predecessors fail. */
  lemma FirstAcceptableIs(replies: nat -> Reply, n: nat, k: nat)
    requires k < n && Acceptable(replies(k))
    requires forall j :: 0 <= j < k ==> !Acceptable(replies(j))
    ensures FirstAcceptable(replies, n) == Some(k)
  {
  }

  // ----- wallpaper URL -----

  datatype WallpaperInfo = WallpaperInfo(
    url: string,
    startDate: Field,
    title: Field,
    copyright: Field)

  const UhdSuffix := "_UHD.jpg"

  /** How a template literal renders a descriptor field. */
  function Render(f: Field): string {
    match f
    case Str(v) => v
    case Absent => "undefined"
    case Null => "null"
  }

  function GenerateWallpaperUrl(baseUrl: string, metadata: Option<Payload>): (r: Result<WallpaperInfo, Error>)
    ensures r.Failure? <==> metadata.None? || FirstImage(metadata.value).None?
    ensures r.Failure? ==> r.error == InvalidMetadata
    ensures r.Success? ==>
      var image := FirstImage(metadata.value).value;
      && r.value.url == baseUrl + Render(image.urlbase) + UhdSuffix
      && r.value.startDate == image.startdate
      && r.value.title == image.title
      && r.value.copyright == image.copyright
  {
    if metadata.None? then Failure(InvalidMetadata)
    else
      match FirstImage(metadata.value)
      case None => Failure(InvalidMetadata)
      case Some(image) =>
        var fullUhdUrl := baseUrl + (Render(image.urlbase) + UhdSuffix);
        Success(WallpaperInfo(fullUhdUrl, image.startdate, image.title, image.copyright))
  }

  // ----- persistence -----

  /** `mkdirSync(dir, { recursive: true })` guarded by `existsSync(dir)`. */
  function EnsureDir(c: Cache, dir: Path): (r: (Cache, seq<Event>))
    ensures r.0.dirs == c.dirs + {dir}
    ensures r.0.image == c.image && r.0.metadata == c.metadata
    ensures r.0 == Replay(c, r.1)
    ensures forall i :: 0 <= i < |r.1| ==> r.1[i].MakeDirectory?
    // the directory is created only when it does not exist yet
    ensures r.1 == [] <==> dir in c.dirs
    ensures dir !in c.dirs ==> r.1 == [MakeDirectory(dir)]
  {
    if dir in c.dirs then (c, [])
    else (c.(dirs := c.dirs + {dir}), [MakeDirectory(dir)])
  }

  /** Downloads the image and writes it to the image cache file. The image
      directory is created before the request is sent. */
  function DownloadWallpaper(cfg: Config, url: string, reply: DownloadReply, write: WriteOutcome, c: Cache): (r: Run)
    ensures r.result.Success? <==> reply.Delivered? && reply.status == 200 && write.Written?
    ensures r.result.Success? ==> r.result.value && r.cache.image == Present(reply.body)
    ensures r.result.Failure? ==> r.cache.image == c.image
    ensures r.cache.metadata == c.metadata
    ensures r.cache.dirs == c.dirs + {cfg.imageDir}
  {
    var (made, mkdir) := EnsureDir(c, cfg.imageDir);
    var sent := mkdir + [DownloadRequest(url)];
    if reply.Delivered? && reply.status == 200 && write.Written? then
      Run(Success(true), sent + [WriteImage(reply.body)], made.(image := Present(reply.body)))
    else
      Run(Failure(DownloadError(reply, write)), sent, made)
  }

  /** The error a download raises: the client's rejection, a status other
      than 200, or the failed write, in the order they are checked. */
  function DownloadError(reply: DownloadReply, write: WriteOutcome): (e: Error)
    requires !(reply.Delivered? && reply.status == 200 && write.Written?)
    // a refused request wins, then a non-200 status, then the failed write
    ensures e.DownloadFailed? <==> reply.Refused?
    ensures e.DownloadFailed? ==> e.message == reply.message
    ensures e.DownloadStatus? <==> reply.Delivered? && reply.status != 200
    ensures e.DownloadStatus? ==> e.status == reply.status
    ensures e.ImageWriteFailed? <==> reply.Delivered? && reply.status == 200
    ensures e.ImageWriteFailed? ==> e.message == write.message
  {
    match reply
    case Refused(msg) => DownloadFailed(msg)
    case Delivered(status, _) =>
      if status != 200 then DownloadStatus(status) else ImageWriteFailed(write.message)
  }

  /** The download's trace: directory creation, then the one request, then,
      only on success, the image write as the last action. */
  lemma DownloadTrace(cfg: Config, url: string, reply: DownloadReply, write: WriteOutcome, c: Cache)
    ensures var r := DownloadWallpaper(cfg, url, reply, write, c);
      && (forall i :: 0 <= i < |r.trace| ==> !r.trace[i].WriteMetadata?)
      && (forall i :: 0 <= i < |r.trace| - 1 ==> !r.trace[i].WriteImage?)
      && |r.trace| >= 1
      && (r.result.Success? <==> r.trace[|r.trace| - 1].WriteImage?)
      && (r.result.Success? ==> |r.trace| >= 2 && r.trace[|r.trace| - 2] == DownloadRequest(url))
  {
  }

  lemma DownloadReplays(cfg: Config, url: string, reply: DownloadReply, write: WriteOutcome, c: Cache)
    ensures var r := DownloadWallpaper(cfg, url, reply, write, c);
      r.cache == Replay(c, r.trace)
  {
    var (made, mkdir) := EnsureDir(c, cfg.imageDir);
    var sent := mkdir + [DownloadRequest(url)];
    ReplayAppend(c, mkdir, [DownloadRequest(url)]);
    ReplayOne(made, DownloadRequest(url));
    assert Replay(c, sent) == made;
    if reply.Delivered? && reply.status == 200 && write.Written? {
      ReplayAppend(c, sent, [WriteImage(reply.body)]);
      ReplayOne(made, WriteImage(reply.body));
    }
  }

  lemma DownloadCounts(cfg: Config, url: string, reply: DownloadReply, write: WriteOutcome, c: Cache)
    ensures var r := DownloadWallpaper(cfg, url, reply, write, c);
      Downloads(r.trace) == 1 && Requests(r.trace) == 0
  {
    var (made, mkdir) := EnsureDir(c, cfg.imageDir);
    var sent := mkdir + [DownloadRequest(url)];
    NoRequests(mkdir);
    CountsAppend(mkdir, [DownloadRequest(url)]);
    CountsOne(DownloadRequest(url));
    assert Downloads(sent) == 1 && Requests(sent) == 0;
    if reply.Delivered? && reply.status == 200 && write.Written? {
      CountsAppend(sent, [WriteImage(reply.body)]);
      CountsOne(WriteImage(reply.body));
    }
  }

  /** Writes the metadata document, serialised, to the metadata cache file. */
  function SaveMetadata(cfg: Config, codec: Codec, metadata: Payload, write: WriteOutcome, c: Cache): (r: Run)
    ensures r.result.Success? <==> write.Written?
    ensures r.result.Success? ==> r.result.value && r.cache.metadata == Present(codec.stringify(metadata))
    ensures r.result.Success? && RoundTrips(codec) ==> codec.parse(r.cache.metadata.content) == Some(metadata)
    ensures r.result.Failure? ==> r.cache.metadata == c.metadata
    ensures r.result.Failure? ==> r.result.error.MetadataWriteFailed?
    ensures r.cache.image == c.image
    ensures r.cache.dirs == c.dirs + {cfg.metadataDir}
  {
    var (made, mkdir) := EnsureDir(c, cfg.metadataDir);
    match write
    case WriteError(msg) => Run(Failure(MetadataWriteFailed(msg)), mkdir, made)
    case Written =>
      var text := codec.stringify(metadata);
      Run(Success(true), mkdir + [WriteMetadata(text)], made.(metadata := Present(text)))
  }

  /** The save's trace: directory creation, then the metadata write on success. */
  lemma SaveTrace(cfg: Config, codec: Codec, metadata: Payload, write: WriteOutcome, c: Cache)
    ensures var r := SaveMetadata(cfg, codec, metadata, write, c);
      && r.cache == Replay(c, r.trace)
      && Downloads(r.trace) == 0 && Requests(r.trace) == 0
      && (forall i :: 0 <= i < |r.trace| ==> r.trace[i].MakeDirectory? || r.trace[i].WriteMetadata?)
  {
    var r := SaveMetadata(cfg, codec, metadata, write, c);
    var made := EnsureDir(c, cfg.metadataDir).0;
    var mkdir := EnsureDir(c, cfg.metadataDir).1;
    NoRequests(mkdir);
    if write.Written? {
      var text := codec.stringify(metadata);
      assert r.trace == mkdir + [WriteMetadata(text)];
      assert r.cache == Apply(made, WriteMetadata(text));
      ReplayAppend(c, mkdir, [WriteMetadata(text)]);
      ReplayOne(made, WriteMetadata(text));
      CountsAppend(mkdir, [WriteMetadata(text)]);
      CountsOne(WriteMetadata(text));
    } else {
      assert r.trace == mkdir && r.cache == made;
    }
  }

  /** A trace of directory creations holds no requests. */
  lemma {:induction false} NoRequests(t: seq<Event>)
    requires forall i :: 0 <= i < |t| ==> t[i].MakeDirectory?
    ensures Requests(t) == 0 && Downloads(t) == 0 && Delays(t) == 0
    decreases |t|
  {
    if t != [] {
      NoRequests(t[..|t| - 1]);
    }
  }

  // ----- change detection and the update cycle -----

  /** Whether the cached metadata file forces a download: true unless it
      exists, reads, parses, and its first image has the fetched start date.
      A read or parse failure is not an error; it forces the update. */
  function NeedsUpdate(codec: Codec, stored: File<string>, fetched: Field): (r: bool)
    ensures !r <==>
      && stored.Present?
      && codec.parse(stored.content).Some?
      && FirstImage(codec.parse(stored.content).value).Some?
      && FirstImage(codec.parse(stored.content).value).value.startdate == fetched
  {
    match stored
    case Missing => true
    case Unreadable => true
    case Present(text) =>
      match codec.parse(text)
      case None => true
      case Some(previous) =>
        match FirstImage(previous)
        case None => true
        case Some(first) => first.startdate != fetched
  }

  /** The update branch of the cycle: download and write the image, and
      only when that succeeded, write the metadata. */
  function Persist(cfg: Config, codec: Codec, env: Env, url: string, metadata: Payload, c: Cache): (r: Run)
    ensures r.result.Success? <==>
      env.download.Delivered? && env.download.status == 200 && env.imageWrite.Written? && env.metadataWrite.Written?
    ensures r.result.Success? ==>
      && r.result.value
      && r.cache.image == Present(env.download.body)
      && r.cache.metadata == Present(codec.stringify(metadata))
    ensures r.result.Failure? ==> r.cache.metadata == c.metadata
    ensures r.cache.image != c.image ==>
      && env.download.Delivered? && env.download.status == 200
      && r.cache.image == Present(env.download.body)
      && (r.result.Success? || r.result.error.MetadataWriteFailed?)
  {
    var d := DownloadWallpaper(cfg, url, env.download, env.imageWrite, c);
    if d.result.Failure? then d
    else
      var s := SaveMetadata(cfg, codec, metadata, env.metadataWrite, d.cache);
      Run(s.result, d.trace + s.trace, s.cache)
  }

  /** The update branch's cache is the replay of its trace. */
  lemma PersistReplays(cfg: Config, codec: Codec, env: Env, url: string, metadata: Payload, c: Cache)
    ensures var r := Persist(cfg, codec, env, url, metadata, c);
      r.cache == Replay(c, r.trace)
  {
    var d := DownloadWallpaper(cfg, url, env.download, env.imageWrite, c);
    DownloadReplays(cfg, url, env.download, env.imageWrite, c);
    if d.result.Success? {
      var s := SaveMetadata(cfg, codec, metadata, env.metadataWrite, d.cache);
      SaveTrace(cfg, codec, metadata, env.metadataWrite, d.cache);
      ReplayAppend(c, d.trace, s.trace);
    }
  }

  /** The update branch downloads once and requests no metadata. */
  lemma PersistCounts(cfg: Config, codec: Codec, env: Env, url: string, metadata: Payload, c: Cache)
    ensures var r := Persist(cfg, codec, env, url, metadata, c);
      Downloads(r.trace) == 1 && Requests(r.trace) == 0
  {
    var d := DownloadWallpaper(cfg, url, env.download, env.imageWrite, c);
    DownloadCounts(cfg, url, env.download, env.imageWrite, c);
    if d.result.Success? {
      var s := SaveMetadata(cfg, codec, metadata, env.metadataWrite, d.cache);
      SaveTrace(cfg, codec, metadata, env.metadataWrite, d.cache);
      CountsAppend(d.trace, s.trace);
    }
  }

  /** In the update branch the image is written after the download request
      and the metadata after the image. */
  lemma PersistOrder(cfg: Config, codec: Codec, env: Env, url: string, metadata: Payload, c: Cache)
    ensures var r := Persist(cfg, codec, env, url, metadata, c);
      ImageWrittenFirst(r.trace) && DownloadedFirst(r.trace)
  {
    var d := DownloadWallpaper(cfg, url, env.download, env.imageWrite, c);
    DownloadTrace(cfg, url, env.download, env.imageWrite, c);
    if d.result.Success? {
      var s := SaveMetadata(cfg, codec, metadata, env.metadataWrite, d.cache);
      SaveTrace(cfg, codec, metadata, env.metadataWrite, d.cache);
      WritesInOrder(d.trace, s.trace, url);
    }
  }

  lemma WritesInOrder(download: seq<Event>, save: seq<Event>, url: string)
    requires |download| >= 2
    requires download[|download| - 1].WriteImage? && download[|download| - 2] == DownloadRequest(url)
    requires forall i :: 0 <= i < |download| ==> !download[i].WriteMetadata?
    requires forall i :: 0 <= i < |download| - 1 ==> !download[i].WriteImage?
    requires forall i :: 0 <= i < |save| ==> save[i].MakeDirectory? || save[i].WriteMetadata?
    ensures ImageWrittenFirst(download + save) && DownloadedFirst(download + save)
  {
    var t := download + save;
    var w := |download| - 1;
    assert forall j :: 0 <= j <= w ==> t[j] == download[j];
    assert forall j :: w < j < |t| ==> t[j] == save[j - |download|];
    forall j | 0 <= j < |t| && t[j].WriteMetadata?
      ensures exists i :: 0 <= i < j && t[i].WriteImage?
    {
      assert w < j && t[w].WriteImage?;
    }
    forall j | 0 <= j < |t| && t[j].WriteImage?
      ensures exists i :: 0 <= i < j && t[i].DownloadRequest?
    {
      assert j == w && t[w - 1].DownloadRequest?;
    }
  }

  /** One update cycle: fetch metadata, derive the download URL, compare
      start dates, and when they differ download the image and then save the
      metadata. Returns `true` when the cache was refreshed, `false` when it
      was already current. */
  function CheckAndUpdate(cfg: Config, codec: Codec, env: Env, c: Cache): (o: Run)
    // "no update" touches nothing: the only actions are the metadata requests
    ensures o.result == Success(false) ==> o.cache == c && o.trace == Fetch(cfg, env.replies).trace
    // an updated cache holds the downloaded image and the fetched metadata
    ensures o.result == Success(true) ==>
      && Fetch(cfg, env.replies).result.Success?
      && Fetch(cfg, env.replies).result.value.Some?
      && env.download.Delivered? && env.download.status == 200
      && o.cache.image == Present(env.download.body)
      && o.cache.metadata == Present(codec.stringify(Fetch(cfg, env.replies).result.value.value))
    // the image changes only to the bytes of a 200 download
    ensures o.cache.image != c.image ==>
      env.download.Delivered? && env.download.status == 200 && o.cache.image == Present(env.download.body)
    // only a failed metadata write leaves a new image beside old metadata
    ensures o.result.Failure? && o.cache.image != c.image ==> o.result.error.MetadataWriteFailed?
    // any other failure leaves the metadata file as it was
    ensures o.result.Failure? ==> o.cache.metadata == c.metadata
  {
    var f := Fetch(cfg, env.replies);
    if f.result.Failure? then Run(Failure(f.result.error), f.trace, c)
    else
      var info := GenerateWallpaperUrl(cfg.baseUrl, f.result.value);
      if info.Failure? then Run(Failure(info.error), f.trace, c)
      else
        var metadata := f.result.value.value;
        if !NeedsUpdate(codec, c.metadata, StartDate(metadata)) then Run(Success(false), f.trace, c)
        else
          var p := Persist(cfg, codec, env, info.value.url, metadata, c);
          Run(p.result, f.trace + p.trace, p.cache)
  }

  /** A trace of requests and delays holds no download. */
  lemma {:induction false} FetchCounts(t: seq<Event>)
    requires forall i :: 0 <= i < |t| ==> t[i].MetadataRequest? || t[i].RetryDelay?
    ensures Downloads(t) == 0
    decreases |t|
  {
    if t != [] {
      FetchCounts(t[..|t| - 1]);
    }
  }
}

=== FILE: cache_state.dfy ===
/** The local cache as seen by the service: the cached image file, the cached
    metadata file and the set of directories known to exist; and the trace of
    observable actions one update cycle performs. */
module CacheState {
  import opened BingData

  type Path = string

  /** A cache file: absent, present but failing to read, or present with contents. */
  datatype File<T> = Missing | Unreadable | Present(content: T) {
    /** `fs.existsSync` */
    predicate Exists() {
      !Missing?
    }
  }

  datatype Cache = Cache(image: File<Bytes>, metadata: File<string>, dirs: set<Path>)

  /** One observable action of an update cycle, in the order it happens. */
  datatype Event =
    | MetadataRequest(url: string)
    | RetryDelay(ms: int)
    | MakeDirectory(dir: Path)
    | DownloadRequest(url: string)
    | WriteImage(data: Bytes)
    | WriteMetadata(text: string)

  /** Events that touch the disk. */
  predicate Touches(e: Event) {
    e.MakeDirectory? || e.WriteImage? || e.WriteMetadata?
  }

  /** The effect of one event on the cache. */
  function Apply(c: Cache, e: Event): Cache {
    match e
    case MakeDirectory(d) => c.(dirs := c.dirs + {d})
    case WriteImage(data) => c.(image := Present(data))
    case WriteMetadata(text) => c.(metadata := Present(text))
    case _ => c
  }

  /** The cache that results from performing the events in order. */
  function Replay(c: Cache, trace: seq<Event>): Cache
    decreases |trace|
  {
    if trace == [] then c else Replay(Apply(c, trace[0]), trace[1..])
  }

  lemma {:induction false} ReplayAppend(c: Cache, a: seq<Event>, b: seq<Event>)
    ensures Replay(c, a + b) == Replay(Replay(c, a), b)
    decreases |a|
  {
    if a == [] {
      assert a + b == b;
    } else {
      assert (a + b)[1..] == a[1..] + b;
      ReplayAppend(Apply(c, a[0]), a[1..], b);
    }
  }

  lemma ReplayOne(c: Cache, e: Event)
    ensures Replay(c, [e]) == Apply(c, e)
  {
    assert [e][1..] == [];
  }

  lemma CountsOne(e: Event)
    ensures Requests([e]) == (if e.MetadataRequest? then 1 else 0)
    ensures Delays([e]) == (if e.RetryDelay? then 1 else 0)
    ensures Downloads([e]) == (if e.DownloadRequest? then 1 else 0)
  {
    assert [e][..0] == [];
  }

  /** A trace none of whose events touch the disk leaves the cache as it was. */
  lemma {:induction false} ReplayInert(c: Cache, trace: seq<Event>)
    requires forall i :: 0 <= i < |trace| ==> !Touches(trace[i])
    ensures Replay(c, trace) == c
    decreases |trace|
  {
    if trace != [] {
      assert !Touches(trace[0]);
      ReplayInert(c, trace[1..]);
    }
  }

  /** Number of metadata requests in a trace. */
  function Requests(trace: seq<Event>): nat
    decreases |trace|
  {
    if trace == [] then 0
    else (if trace[|trace| - 1].MetadataRequest? then 1 else 0) + Requests(trace[..|trace| - 1])
  }

  /** Number of retry delays in a trace. */
  function Delays(trace: seq<Event>): nat
    decreases |trace|
  {
    if trace == [] then 0
    else (if trace[|trace| - 1].RetryDelay? then 1 else 0) + Delays(trace[..|trace| - 1])
  }

  /** Number of image download requests in a trace. */
  function Downloads(trace: seq<Event>): nat
    decreases |trace|
  {
    if trace == [] then 0
    else (if trace[|trace| - 1].DownloadRequest? then 1 else 0) + Downloads(trace[..|trace| - 1])
  }

  lemma {:induction false} CountsAppend(a: seq<Event>, b: seq<Event>)
    ensures Requests(a + b) == Requests(a) + Requests(b)
    ensures Delays(a + b) == Delays(a) + Delays(b)
    ensures Downloads(a + b) == Downloads(a) + Downloads(b)
    decreases |b|
  {
    if b == [] {
      assert a + b == a;
    } else {
      var b' := b[..|b| - 1];
      assert (a + b)[..|a + b| - 1] == a + b';
      assert (a + b)[|a + b| - 1] == b[|b| - 1];
      CountsAppend(a, b');
    }
  }

  /** Every metadata write comes after some image write, and after every
      image write: the metadata is written last. */
  ghost predicate ImageWrittenFirst(t: seq<Event>) {
    && (forall j :: 0 <= j < |t| && t[j].WriteMetadata? ==> exists i :: 0 <= i < j && t[i].WriteImage?)
    && (forall i, j :: 0 <= i < |t| && 0 <= j < |t| && t[i].WriteImage? && t[j].WriteMetadata? ==> i < j)
  }

  /** Every image write comes after some download request, and after every
      download request. */
  ghost predicate DownloadedFirst(t: seq<Event>) {
    && (forall j :: 0 <= j < |t| && t[j].WriteImage? ==> exists i :: 0 <= i < j && t[i].DownloadRequest?)
    && (forall i, j :: 0 <= i < |t| && 0 <= j < |t| && t[i].DownloadRequest? && t[j].WriteImage? ==> i < j)
  }
}

=== FILE: update_properties.dfy ===
/** Properties of metadata retrieval and of the update cycle that relate
    several calls or hold for whole classes of environments. */
module UpdateProperties {
  import opened Wrappers
  import opened BingData
  import opened CacheState
  import opened BingService

  // ----- retry loop -----

  /** `n` attempts make `n` requests and `n - 1` delays. */
  lemma {:induction false} AttemptTraceCounts(cfg: Config, n: nat)
    requires n >= 1
    ensures Requests(AttemptTrace(cfg, n)) == n
    ensures Delays(AttemptTrace(cfg, n)) == n - 1
    decreases n
  {
    var t := AttemptTrace(cfg, n);
    if n == 1 {
      assert t[..0] == [];
    } else {
      AttemptTraceCounts(cfg, n - 1);
      var tail := [RetryDelay(cfg.delayMs), MetadataRequest(cfg.apiUrl)];
      assert t == AttemptTrace(cfg, n - 1) + tail;
      CountsAppend(AttemptTrace(cfg, n - 1), tail);
      CountsAppend([RetryDelay(cfg.delayMs)], [MetadataRequest(cfg.apiUrl)]);
      assert [RetryDelay(cfg.delayMs)][..0] == [];
      assert [MetadataRequest(cfg.apiUrl)][..0] == [];
    }
  }

  /** When attempt `k` is the first acceptable one, its data is returned after
      exactly `k` requests and `k - 1` delays. */
  lemma FetchSucceedsAt(cfg: Config, replies: nat -> Reply, k: nat)
    requires 1 <= k <= cfg.maxAttempts
    requires Acceptable(replies(k - 1))
    requires forall j :: 0 <= j < k - 1 ==> !Acceptable(replies(j))
    ensures Fetch(cfg, replies).result == Success(Some(replies(k - 1).data.value))
    ensures Requests(Fetch(cfg, replies).trace) == k
    ensures Delays(Fetch(cfg, replies).trace) == k - 1
  {
    var first := FirstAcceptable(replies, cfg.maxAttempts as nat);
    assert first == Some(k - 1);
    AttemptTraceCounts(cfg, k);
  }

  /** When every attempt fails, exactly `maxAttempts` requests are made, no
      delay follows the last one, and the error carries the last message. */
  lemma FetchExhausts(cfg: Config, replies: nat -> Reply)
    requires 1 <= cfg.maxAttempts
    requires forall j :: 0 <= j < cfg.maxAttempts ==> !Acceptable(replies(j))
    ensures Fetch(cfg, replies).result == Failure(FetchExhausted(AttemptError(replies(cfg.maxAttempts - 1))))
    ensures Requests(Fetch(cfg, replies).trace) == cfg.maxAttempts
    ensures Delays(Fetch(cfg, replies).trace) == cfg.maxAttempts - 1
    ensures Fetch(cfg, replies).trace[|Fetch(cfg, replies).trace| - 1] == MetadataRequest(cfg.apiUrl)
  {
    AttemptTraceCounts(cfg, cfg.maxAttempts as nat);
  }

  /** With no attempts allowed, nothing is requested and the result is `undefined`. */
  lemma FetchWithoutAttempts(cfg: Config, replies: nat -> Reply)
    requires cfg.maxAttempts <= 0
    ensures Fetch(cfg, replies) == Fetched(Success(None), [])
  {
  }

  /** A 200 answer whose `images` is an empty array passes the acceptance
      test, but the cycle then fails on URL generation without touching the
      network again or the disk. */
  lemma EmptyImageListAcceptedThenRejected(cfg: Config, codec: Codec, env: Env, c: Cache)
    requires 1 <= cfg.maxAttempts
    requires env.replies(0) == Answered(200, Some(Payload(Some([]))))
    ensures Acceptable(env.replies(0))
    ensures CheckAndUpdate(cfg, codec, env, c) == Run(Failure(InvalidMetadata), [MetadataRequest(cfg.apiUrl)], c)
  {
    FetchSucceedsAt(cfg, env.replies, 1);
  }

  /** With no attempts allowed the `undefined` metadata makes URL generation
      fail; no request is made and the cache is untouched. */
  lemma CycleWithoutAttempts(cfg: Config, codec: Codec, env: Env, c: Cache)
    requires cfg.maxAttempts <= 0
    ensures CheckAndUpdate(cfg, codec, env, c) == Run(Failure(InvalidMetadata), [], c)
  {
  }

  /** A cycle whose every metadata attempt fails reports the last failure,
      made exactly `maxAttempts` requests, and leaves the cache alone. */
  lemma CycleFetchFailure(cfg: Config, codec: Codec, env: Env, c: Cache)
    requires 1 <= cfg.maxAttempts
    requires forall j :: 0 <= j < cfg.maxAttempts ==> !Acceptable(env.replies(j))
    ensures var o := CheckAndUpdate(cfg, codec, env, c);
      && o.result == Failure(FetchExhausted(AttemptError(env.replies(cfg.maxAttempts - 1))))
      && o.cache == c
      && Requests(o.trace) == cfg.maxAttempts
      && Downloads(o.trace) == 0
  {
    FetchExhausts(cfg, env.replies);
    FetchCounts(Fetch(cfg, env.replies).trace);
  }

  // ----- wallpaper URL -----

  /** The download URL splits back into the configured base, the descriptor's
      `urlbase` and the UHD suffix. */
  lemma UrlDecomposes(baseUrl: string, metadata: Option<Payload>)
    requires GenerateWallpaperUrl(baseUrl, metadata).Success?
    ensures var url := GenerateWallpaperUrl(baseUrl, metadata).value.url;
      && |url| == |baseUrl| + |Render(FirstImage(metadata.value).value.urlbase)| + |UhdSuffix|
      && url[..|baseUrl|] == baseUrl
      && url[|url| - |UhdSuffix|..] == UhdSuffix
      && url[|baseUrl|..|url| - |UhdSuffix|] == Render(FirstImage(metadata.value).value.urlbase)
  {
    var url := GenerateWallpaperUrl(baseUrl, metadata).value.url;
    var middle := Render(FirstImage(metadata.value).value.urlbase);
    assert url == baseUrl + middle + UhdSuffix;
    assert url[..|baseUrl|] == baseUrl;
    assert url[|url| - |UhdSuffix|..] == UhdSuffix;
    assert url[|baseUrl|..|url| - |UhdSuffix|] == middle;
  }

  /** Two documents whose first descriptors carry different `urlbase` values
      lead to different download URLs. */
  lemma DistinctUrlbasesDistinctUrls(baseUrl: string, a: Payload, b: Payload)
    requires FirstImage(a).Some? && FirstImage(b).Some?
    requires FirstImage(a).value.urlbase.Str? && FirstImage(b).value.urlbase.Str?
    requires FirstImage(a).value.urlbase != FirstImage(b).value.urlbase
    ensures GenerateWallpaperUrl(baseUrl, Some(a)).value.url != GenerateWallpaperUrl(baseUrl, Some(b)).value.url
  {
    UrlDecomposes(baseUrl, Some(a));
    UrlDecomposes(baseUrl, Some(b));
  }

  // ----- the cycle's trace -----

  lemma FetchTraceInert(cfg: Config, replies: nat -> Reply, c: Cache)
    ensures Replay(c, Fetch(cfg, replies).trace) == c
  {
    var t := Fetch(cfg, replies).trace;
    assert forall i :: 0 <= i < |t| ==> !Touches(t[i]);
    ReplayInert(c, t);
  }

  /** The cache a cycle returns is exactly what performing its trace on the
      starting cache produces. */
  lemma CycleReplays(cfg: Config, codec: Codec, env: Env, c: Cache)
    ensures var o := CheckAndUpdate(cfg, codec, env, c);
      o.cache == Replay(c, o.trace)
  {
    var f := Fetch(cfg, env.replies);
    FetchTraceInert(cfg, env.replies, c);
    if f.result.Success? {
      var info := GenerateWallpaperUrl(cfg.baseUrl, f.result.value);
      if info.Success? {
        var metadata := f.result.value.value;
        if NeedsUpdate(codec, c.metadata, StartDate(metadata)) {
          var p := Persist(cfg, codec, env, info.value.url, metadata, c);
          PersistReplays(cfg, codec, env, info.value.url, metadata, c);
          ReplayAppend(c, f.trace, p.trace);
        }
      }
    }
  }

  /** A cycle makes exactly the requests of metadata retrieval and at most
      one download, which happens exactly when an update was needed. */
  lemma CycleCounts(cfg: Config, codec: Codec, env: Env, c: Cache)
    ensures var o := CheckAndUpdate(cfg, codec, env, c);
      && Requests(o.trace) == Requests(Fetch(cfg, env.replies).trace)
      && Downloads(o.trace) <= 1
      && (Downloads(o.trace) == 1 <==> o.result == Success(true) || (o.result.Failure? && !o.result.error.FetchExhausted? && !o.result.error.InvalidMetadata?))
  {
    var f := Fetch(cfg, env.replies);
    FetchCounts(f.trace);
    if f.result.Success? {
      var info := GenerateWallpaperUrl(cfg.baseUrl, f.result.value);
      if info.Success? {
        var metadata := f.result.value.value;
        if NeedsUpdate(codec, c.metadata, StartDate(metadata)) {
          var p := Persist(cfg, codec, env, info.value.url, metadata, c);
          PersistCounts(cfg, codec, env, info.value.url, metadata, c);
          CountsAppend(f.trace, p.trace);
          PersistErrors(cfg, codec, env, info.value.url, metadata, c);
        }
      }
    }
  }

  /** The update branch fails only with download or write errors. */
  lemma PersistErrors(cfg: Config, codec: Codec, env: Env, url: string, metadata: Payload, c: Cache)
    ensures var r := Persist(cfg, codec, env, url, metadata, c);
      r.result.Failure? ==> !r.result.error.FetchExhausted? && !r.result.error.InvalidMetadata?
  {
  }

  /** Within a cycle the image is written only after the download request,
      and the metadata only after the image. */
  lemma CycleWriteOrder(cfg: Config, codec: Codec, env: Env, c: Cache)
    ensures var o := CheckAndUpdate(cfg, codec, env, c);
      ImageWrittenFirst(o.trace) && DownloadedFirst(o.trace)
  {
    var f := Fetch(cfg, env.replies);
    assert forall i :: 0 <= i < |f.trace| ==> !f.trace[i].WriteImage? && !f.trace[i].WriteMetadata?;
    if f.result.Success? {
      var info := GenerateWallpaperUrl(cfg.baseUrl, f.result.value);
      if info.Success? {
        var metadata := f.result.value.value;
        if NeedsUpdate(codec, c.metadata, StartDate(metadata)) {
          var p := Persist(cfg, codec, env, info.value.url, metadata, c);
          PersistOrder(cfg, codec, env, info.value.url, metadata, c);
          OrderSurvivesPrefix(f.trace, p.trace);
        }
      }
    }
  }

  /** Prefixing a trace with actions that write nothing keeps the write order. */
  lemma OrderSurvivesPrefix(prefix: seq<Event>, t: seq<Event>)
    requires forall i :: 0 <= i < |prefix| ==> !prefix[i].WriteImage? && !prefix[i].WriteMetadata?
    requires ImageWrittenFirst(t) && DownloadedFirst(t)
    ensures ImageWrittenFirst(prefix + t) && DownloadedFirst(prefix + t)
  {
    var all := prefix + t;
    assert forall j :: 0 <= j < |prefix| ==> all[j] == prefix[j];
    assert forall j :: |prefix| <= j < |all| ==> all[j] == t[j - |prefix|];
    forall j | 0 <= j < |all| && all[j].WriteMetadata?
      ensures exists i :: 0 <= i < j && all[i].WriteImage?
    {
      var i :| 0 <= i < j - |prefix| && t[i].WriteImage?;
      assert all[i + |prefix|] == t[i];
    }
    forall j | 0 <= j < |all| && all[j].WriteImage?
      ensures exists i :: 0 <= i < j && all[i].DownloadRequest?
    {
      var i :| 0 <= i < j - |prefix| && t[i].DownloadRequest?;
      assert all[i + |prefix|] == t[i];
    }
  }

  // ----- change detection -----

  /** A stored file that parses to a document whose first image has the
      fetched start date means no update: the cycle only fetches and returns
      `false`. */
  lemma SameStartDateIsUpToDate(cfg: Config, codec: Codec, env: Env, c: Cache, stored: Payload)
    requires c.metadata.Present? && codec.parse(c.metadata.content) == Some(stored)
    requires Fetch(cfg, env.replies).result.Success?
    requires Fetch(cfg, env.replies).result.value.Some?
    requires FirstImage(Fetch(cfg, env.replies).result.value.value).Some?
    requires FirstImage(stored).Some?
    requires StartDate(stored) == StartDate(Fetch(cfg, env.replies).result.value.value)
    ensures CheckAndUpdate(cfg, codec, env, c) == Run(Success(false), Fetch(cfg, env.replies).trace, c)
  {
  }

  /** The cycle reports "up to date" exactly when retrieval produced a
      document with a first image and change detection finds that image's
      start date already stored. */
  lemma UpToDateExactly(cfg: Config, codec: Codec, env: Env, c: Cache)
    ensures var f := Fetch(cfg, env.replies).result;
      CheckAndUpdate(cfg, codec, env, c).result == Success(false)
      <==>
      && f.Success? && f.value.Some? && FirstImage(f.value.value).Some?
      && !NeedsUpdate(codec, c.metadata, StartDate(f.value.value))
  {
  }

  /** A fetched start date different from the stored one (or no readable
      stored document) leads to a download; when the download answers 200
      and both writes succeed the cycle returns `true`, the image file holds
      the downloaded bytes and the metadata file reads back with the new
      start date. */
  lemma NewStartDateUpdates(cfg: Config, codec: Codec, env: Env, c: Cache)
    requires RoundTrips(codec)
    requires Fetch(cfg, env.replies).result.Success?
    requires Fetch(cfg, env.replies).result.value.Some?
    requires FirstImage(Fetch(cfg, env.replies).result.value.value).Some?
    requires NeedsUpdate(codec, c.metadata, StartDate(Fetch(cfg, env.replies).result.value.value))
    requires env.download.Delivered? && env.download.status == 200
    requires env.imageWrite == Written && env.metadataWrite == Written
    ensures var o := CheckAndUpdate(cfg, codec, env, c);
      && o.result == Success(true)
      && Downloads(o.trace) == 1
      && o.cache.image == Present(env.download.body)
      && o.cache.metadata.Present?
      && codec.parse(o.cache.metadata.content).Some?
      && FirstImage(codec.parse(o.cache.metadata.content).value).Some?
      && StartDate(codec.parse(o.cache.metadata.content).value)
         == StartDate(Fetch(cfg, env.replies).result.value.value)
  {
    CycleCounts(cfg, codec, env, c);
  }

  /** Idempotence: after a successful update, a second run whose retrieval
      yields the same metadata (after any attempts, failed ones included)
      returns `false`, downloads nothing, and leaves the cache as the first
      run left it, whatever the download would answer. */
  lemma Idempotent(cfg: Config, codec: Codec, env: Env, env2: Env, c: Cache)
    requires RoundTrips(codec)
    requires CheckAndUpdate(cfg, codec, env, c).result == Success(true)
    requires Fetch(cfg, env2.replies).result == Fetch(cfg, env.replies).result
    ensures var first := CheckAndUpdate(cfg, codec, env, c);
      var second := CheckAndUpdate(cfg, codec, env2, first.cache);
      && second.result == Success(false)
      && second.cache == first.cache
      && Downloads(second.trace) == 0
  {
    var first := CheckAndUpdate(cfg, codec, env, c);
    var f := Fetch(cfg, env.replies);
    var metadata := f.result.value.value;
    assert GenerateWallpaperUrl(cfg.baseUrl, f.result.value).Success?;
    assert codec.parse(first.cache.metadata.content) == Some(metadata);
    SameStartDateIsUpToDate(cfg, codec, env2, first.cache, metadata);
    FetchCounts(Fetch(cfg, env2.replies).trace);
  }

  // ----- the worked example -----

  const ExampleImage := Image(Str("/th?id=OHR.Test1"), Str("20240101"), Str("A"), Str("C"))
  const ExampleDocument := Payload(Some([Some(ExampleImage)]))

  /** No cache yet, one good metadata answer: the image is requested from
      `{base}/th?id=OHR.Test1_UHD.jpg`, both files are written, the cycle
      returns `true`; a second run with the same answers returns `false`
      and downloads nothing. */
  lemma ExampleFirstAndSecondRun(cfg: Config, codec: Codec, env: Env, c: Cache)
    requires RoundTrips(codec)
    requires 1 <= cfg.maxAttempts
    requires env.replies(0) == Answered(200, Some(ExampleDocument))
    requires c.metadata == Missing
    requires env.download.Delivered? && env.download.status == 200
    requires env.imageWrite == Written && env.metadataWrite == Written
    ensures var first := CheckAndUpdate(cfg, codec, env, c);
      && first.result == Success(true)
      && DownloadRequest(cfg.baseUrl + "/th?id=OHR.Test1_UHD.jpg") in first.trace
      && first.cache.image == Present(env.download.body)
      && first.cache.metadata == Present(codec.stringify(ExampleDocument))
      && CheckAndUpdate(cfg, codec, env, first.cache).result == Success(false)
      && Downloads(CheckAndUpdate(cfg, codec, env, first.cache).trace) == 0
  {
    FetchSucceedsAt(cfg, env.replies, 1);
    var f := Fetch(cfg, env.replies);
    var info := GenerateWallpaperUrl(cfg.baseUrl, f.result.value);
    assert info.value.url == cfg.baseUrl + "/th?id=OHR.Test1_UHD.jpg";
    var d := DownloadWallpaper(cfg, info.value.url, env.download, env.imageWrite, c);
    DownloadTrace(cfg, info.value.url, env.download, env.imageWrite, c);
    var s := SaveMetadata(cfg, codec, ExampleDocument, env.metadataWrite, d.cache);
    var first := CheckAndUpdate(cfg, codec, env, c);
    assert first.trace == f.trace + (d.trace + s.trace);
    assert first.trace[|f.trace| + |d.trace| - 2] == DownloadRequest(info.value.url);
    Idempotent(cfg, codec, env, env, c);
  }
}

=== FILE: wrappers.dfy ===
/** Optional values and results used throughout the model. A JavaScript
    function that either returns a value or throws is modelled as a function
    returning `Result`; `undefined`/missing values are `None`. */
module Wrappers {

  datatype Option<+T> = None | Some(value: T)

  datatype Result<+R, +E> = Success(value: R) | Failure(error: E)
}
